=== FILE: README.md ===
# Face-capture app core, modelled in Dafny

This project models the decision logic of a React Native identity-check app.
The app has a camera screen that takes a photo by itself once the user looks
straight at the front camera. It has a login screen that turns a typed
employee number (`matricula`) into the address of that employee's photo on a
server. And it has a shared helper that deletes temporary image files.
Everything else in the app is rendering, navigation and native libraries.

- `gaze.dfy`, module `Gaze`: the classifier `estaOlhandoParaFrente` over one
  detected face. The limits are the ones hard-coded in the source: pitch 3°,
  roll 10°, yaw 10°, eye-open probability 0.7. Angles and probabilities are
  exact `real`s.
- `capture.dfy`, module `CaptureSession`: the camera screen's state
  (`isFocused`, `isGazing`, `isLoading`, `isCameraActive`, `detectedFaces`,
  whether `location` is present). Each React hook is a discrete event handled
  by a pure `Step`:
  - focus and blur;
  - one frame observation (`handleDetectedFaces`);
  - the capture effect's guard check;
  - the end of the asynchronous `_takePhoto`;
  - `location` appearing or disappearing.
  `Step` returns the new state and the outside effects (alerts, navigation,
  context setters). A model-only counter `pending` counts captures started
  and not yet finished, so mutual exclusion can be stated.
- `login.dfy`, module `Login`: the file-name rules of `downloadImage`, the
  download address, and the branch on the download result.
- `janitor.dfy`, module `TempFiles`: `apagarCacheTemporario` over a
  `set<string>` of existing paths. Failures of the existence check and of
  the unlink are injected as a parameter.
- `text.dfy`, module `Text`: `String.prototype.includes` (a searching loop
  proved against a `Contains` predicate) and `padStart`.
- `optional.dfy`, module `Optional`: `Option`, for `null`/unassigned values.

Behaviour of the source as written, proved here:
- Mutual exclusion of captures holds only while the screen keeps its focus
  (`RunKeepsExclusive`). Blur and focus both clear `isLoading` even while a
  capture is in flight. So blurring, refocusing and one frontal frame start a
  second capture on top of the first (`RefocusAllowsOverlap`).
- A capture that completes after a blur still records the photo and
  navigates (`LateResultApplied`).
- The file-name rules are not injective. "1" and "01" name the same file
  (`ShortNumbersCollide`), and so do "8123456" and "08123456"
  (`EightRuleCollides`).

Facts about the code that shape the model:
- The gaze limits are constants inside `estaOlhandoParaFrente`.
- One positive observation sets `isGazing`; there is no debounce.
- A capture's result is applied whenever it arrives; nothing discards it.

## Model

| member | source | states |
|---|---|---|
| Gaze.LooksAhead | src/screens/camera/index.js:34-58 | a face passes iff pitch is in [-3, 3], roll and yaw are in [-10, 10] and both eye probabilities are at least 0.7, all bounds inclusive |
| Gaze.AnyViolationRejects | src/screens/camera/index.js:48-57 | breaking any single limit (one angle too large or one eye below 0.7) rejects the face whatever the other fields are |
| Gaze.BoundariesInclusive | src/screens/camera/index.js:35-55 | a face exactly on every limit passes; any one field moved past its limit by any positive amount fails |
| Gaze.MirrorInvariant | src/screens/camera/index.js:48-51 | negating all three angles never changes the verdict, since only absolute values are compared |
| CaptureSession.Mount | src/screens/camera/index.js:101-106 | mounting starts idle: not gazing, not loading, camera on, no faces, no capture in flight, focus and location as given, the exclusion invariant holds, and the shared context is reset |
| CaptureSession.OnFocus | src/screens/camera/index.js:128-132 | after focus the camera is live (focused and active), gazing and loading are cleared, and faces, location and in-flight captures are untouched |
| CaptureSession.OnBlur | src/screens/camera/index.js:134-139 | after blur the screen is unfocused, the camera is not live, no capture can start, gazing and loading are cleared and the face list is empty |
| CaptureSession.OnObservation | src/screens/camera/index.js:204-224 | an observation on an unfocused or loading screen, an unparseable payload, or an array whose first element is `null` (the classifier throws and the catch swallows it) changes nothing; otherwise only isGazing and detectedFaces change, to the payload's gaze verdict and the parsed value |
| CaptureSession.GazeOf | src/screens/camera/index.js:212-217 | a non-empty array is judged by the classifier on its first element (a face record is classified, any other non-null value fails, `null` throws); an empty array or a non-array value means not gazing |
| CaptureSession.FirstFaceDecides | src/screens/camera/index.js:212-214 | two payloads with the same first face give the same isGazing, equal to the classifier on that face |
| CaptureSession.OnTrigger | src/screens/camera/index.js:151-153 | when focused, gazing, not loading and with a location, the guard check raises isLoading and starts exactly one capture; otherwise it changes nothing; afterwards the guard is false |
| CaptureSession.TriggerFiresOnce | src/screens/camera/index.js:151-153 | a second guard check right after a capture started does nothing |
| CaptureSession.OnLocation | src/screens/camera/index.js:151-194 | a change of `location` (a dependency of the capture effect) sets its presence to the new value and changes nothing else; the capture guard then holds iff a location is present and the screen is focused, gazing and not loading |
| CaptureSession.Step | src/screens/camera/index.js:151-194 | any event starts a capture iff it is a guard check whose guard holds, and at most one capture starts per event |
| CaptureSession.BusyScreenIgnoresInput | src/screens/camera/index.js:204-208 | while a capture is in flight, observations and guard checks leave the state unchanged and have no effects |
| CaptureSession.StepKeepsExclusive | src/screens/camera/index.js:151-189 | every event keeps "at most one capture in flight, and isLoading exactly while one is", except a focus change during a capture |
| CaptureSession.RunKeepsExclusive | src/screens/camera/index.js:151-224 | over any run that never blurs or refocuses during a capture, the exclusion invariant holds throughout and at most one capture is in flight |
| CaptureSession.CalmRunFromMount | src/screens/camera/index.js:101-189 | from mount, such a run never has two captures in flight, and finishing the one in flight returns to idle: no capture pending, not loading, not gazing, camera on |
| CaptureSession.RefocusAllowsOverlap | src/screens/camera/index.js:127-153 | mount, frontal frame, capture, blur, focus, frontal frame, guard check leaves two captures in flight |
| CaptureSession.LateResultApplied | src/screens/camera/index.js:134-171 | a capture that finishes after a blur still navigates to the photo screen; the camera is active again but not live |
| CaptureSession.OnCaptureFinished | src/screens/camera/index.js:155-189 | every completion (camera not ready, shutter error, lookup error, success) ends not gazing, not loading, camera active, with one capture fewer in flight; it navigates iff the capture and the lookup both succeeded; it records the photo path iff the shutter succeeded; it alerts iff the camera was not ready or a thrown error's message is not suppressed; each path's exact effects are stated |
| CaptureSession.CatchEffects | src/screens/camera/index.js:173-184 | a thrown error produces its alert iff the message contains neither "Request timeout" nor "Erro na API", and nothing else |
| CaptureSession.DecideAlert | src/screens/camera/index.js:174-177 | the two `includes` calls decide exactly the suppression predicate |
| CaptureSession.MarkedErrorsSuppressed | src/screens/camera/index.js:174-177 | any message with "Request timeout" or "Erro na API" spliced in anywhere is never alerted |
| CaptureSession.FailureAlert | src/screens/camera/index.js:178-183 | the capture alert has the title "Erro de Captura", its text starts with "Falha ao processar a imagem: " and ends with ".", and contains the error's message, or "Erro desconhecido" when the message is empty |
| Text.Includes | src/screens/camera/index.js:175-176 | the search answers true iff the needle occurs at some position of the message |
| Text.PadStart | src/screens/login/index.js:33-37 | padding leaves strings of at least n characters unchanged and otherwise prepends exactly n minus the length pad characters, so the result ends with the input |
| Login.ServerFileId | src/screens/login/index.js:27-42 | every number gets a file name; shorter than 6 (or 6 not starting with '8') gives "014", zeros and the number, 9 characters; at least 6 starting with '8' gives "0" and the number, overriding the "014" rule at length 6; longer than 6 not starting with '8' gives the number itself |
| Login.FileIdKeepsNumber | src/screens/login/index.js:32-46 | every file name ends with the typed number and has at least 6 characters, so the final padStart is a no-op |
| Login.ShortNumbersCollide | src/screens/login/index.js:32-34 | "1" and "01" both name file "014000001" |
| Login.EightRuleCollides | src/screens/login/index.js:36-42 | "8123456" and "08123456" both name file "08123456" |
| Login.ImageUrl | src/screens/login/index.js:44-46 | the address starts with the fixed download prefix and ends with ".jpg"; between them is the file name, left-padded with '0' to six characters when shorter |
| Login.UrlShape | src/screens/login/index.js:44-46 | the address is the fixed download prefix, the file name and ".jpg", and the part before ".jpg" ends with the typed number |
| Login.DownloadImage | src/screens/login/index.js:22-77 | an absent or empty number requests nothing, changes nothing and does not navigate; otherwise the built address is requested; a non-empty local path is stored and leads to "Luz"; an empty path leads to "ErrorPhoto" with nothing stored; a thrown error is stored in `error` and leads to "ErrorPhoto" |
| Login.NavigationOnlyAfterRequest | src/screens/login/index.js:68-77 | a press navigates iff it requested a file, and reaches "Luz" only with a non-empty stored photo path |
| TempFiles.DeleteTemp | src/context/index.js:43-62 | an empty or non-string argument makes no call and changes nothing; otherwise existence is checked first, and unlink is called iff that check succeeded and found the path; at most that path disappears, and it disappears iff it existed and neither call failed; only the calls "exists" or "exists, unlink" are made; a failing call always gives an error that is the fixed prefix followed by the message of the call that threw (the existence check's when it fails, since unlink is then never called), with the files unchanged |
| TempFiles.DeleteIsRemoval | src/context/index.js:49-57 | without failures, deletion removes exactly the given path, and a missing path is not an error |
| TempFiles.DeleteTwiceIsDeleteOnce | src/context/index.js:49-57 | deleting the same path twice leaves the same files as once, and the second call only checks existence |

## Left out

- Frame processor worklet and the cross-thread hand-off (camera/index.js:204-205, 229-237): only their result, one observation event, is modelled. React's batching, stale closures and effect scheduling are not modelled. The capture guard check is an explicit event, not something that runs after every render.
- Camera permission request and the "no device" or "no permission" screens (camera/index.js:111-122, 241-264): native calls and rendering.
- Face detector, `takePhoto`, `JSON.stringify`/`JSON.parse`: opaque. A payload is either a parsed face array, another JSON value, or unparseable.
- `consultarDistancias`, `resetaTudo`, `location`: the camera screen takes them from the app context, but src/context/index.js:65-77 does not provide them; they come from outside that file. Only their success or throw, their list of images, and whether a location is present are modelled. `setArquivos` (src/context/index.js:18) is modelled as the `SetFiles` effect.
- CaptureSession.GazeOf: an array element that is an object with only some face fields, or with non-numeric ones, is not modelled; such an element is either a full face record or `OtherEntry`, which always fails the classifier. The detector always produces full records.
- CaptureSession.OnCaptureFinished: shows only the state after `finally`. The brief `isCameraActive = false` between the photo and the lookup (camera/index.js:163) is overwritten before the handler ends.
- CaptureSession.OnCaptureFinished: an error without a `message` is not modelled. In the source, `includes` on `undefined` would throw inside the catch block.
- CaptureSession.Step: a completion with no capture in flight cannot happen in the source; the model ignores it.
- Login.DownloadImage: the download (RNFetchBlob) is an opaque function from address to outcome. A `null` local path is written as the empty string, and a non-string `matricula` is not modelled. Console logging is left out.
- Text.PadStart, Login.ServerFileId: JavaScript lengths count UTF-16 code units, but Dafny `char` is a Unicode scalar value. The two agree on digit strings.
- TempFiles.DeleteTemp: the console messages are left out, and the thrown error's wrapped message is modelled only as the fixed prefix plus the underlying message.
- The `appContext` hook guard (context/index.js:90-96), the JSX of all screens, App.js, stack.js and the presentational screens have no decision logic.
- IEEE floating point: the classifier is modelled over exact reals. NaN (a missing field) would make every comparison false; it is not modelled.

=== FILE: capture.dfy ===
/** The camera screen's session state machine (`CameraScreen`): the
    asynchronous React hooks become discrete events applied by a pure `Step`.
    The state is the screen's own state variables plus `isFocused` and the
    presence of `location`, and one model-only counter, `pending`, that
    counts the photo captures started and not yet finished. */
module CaptureSession {
  import opened Optional
  import opened Gaze
  import opened Text

  /** One element of a parsed array. Destructuring `null` throws; any other
      value without the face fields yields `NaN` angles, which fail every
      comparison. */
  datatype Entry = FaceEntry(face: Face) | NullEntry | OtherEntry

  /** The value `JSON.parse` yields for one frame's payload: an array, or a
      value that is not an array (`null`, an object, a number, ...). */
  datatype Json = FaceList(entries: seq<Entry>) | OtherJson

  /** What reaches the handler from the frame processor. */
  datatype Payload = Parsed(value: Json) | Unparseable

  datatype Session = Session(
    focused: bool,        // isFocused
    gazing: bool,         // isGazing
    loading: bool,        // isLoading, the capture guard
    cameraActive: bool,   // isCameraActive
    detectedFaces: Json,  // detectedFaces
    hasLocation: bool,    // location is truthy
    pending: nat)         // captures in flight (model bookkeeping)

  /** How the asynchronous capture ends. `consultarDistancias` is opaque:
      only whether it threw and what it listed matter. */
  datatype Outcome =
    | CameraNotReady                                  // camera.current missing
    | ShutterFailed(message: string)                  // takePhoto threw
    | LookupFailed(photoPath: string, message: string) // consultarDistancias threw
    | Listed(photoPath: string, images: seq<string>)  // both succeeded

  datatype Event =
    | Focus
    | Blur
    | Observation(payload: Payload)
    | TriggerCheck
    | CaptureFinished(outcome: Outcome)
    | LocationChanged(present: bool)

  /** What the screen does outside its own state. */
  datatype Effect =
    | ResetAll                          // resetaTudo()
    | StartCapture                      // _takePhoto() launched
    | ShowAlert(title: string, message: string)
    | SetPhotoPath(path: string)
    | SetFiles(images: seq<string>)     // setArquivos
    | NavigateToPhoto                   // navigation.navigate("Photo")

  datatype Transition = Transition(session: Session, effects: seq<Effect>)

  const NoFaces: Json := FaceList([])
  const NotReadyTitle: string := "Erro"
  const NotReadyMessage: string := "Câmera não está pronta para tirar foto."
  const FailureTitle: string := "Erro de Captura"
  const FailureLead: string := "Falha ao processar a imagem: "
  const UnknownError: string := "Erro desconhecido"
  const TimeoutMarker: string := "Request timeout"
  const ApiMarker: string := "Erro na API"

  /** The camera preview runs (`isActive`) only on a focused screen whose
      camera is not paused. */
  predicate CameraLive(s: Session) {
    s.focused && s.cameraActive
  }

  /** The guard of the capture effect. */
  predicate CanCapture(s: Session) {
    s.focused && s.gazing && !s.loading && s.hasLocation
  }

  /** The mutual-exclusion invariant: at most one capture in flight, and the
      guard flag is raised exactly while it is. */
  predicate Exclusive(s: Session) {
    s.pending <= 1 && (s.loading <==> s.pending == 1)
  }

  /** Mount: the state starts cleared (not gazing, not loading, camera on, no
      faces) and the shared context is reset. */
  function Mount(focused: bool, hasLocation: bool): (t: Transition)
    ensures Exclusive(t.session) && t.session.pending == 0
    ensures !t.session.gazing && !t.session.loading && !CanCapture(t.session)
    ensures t.session.focused == focused && t.session.hasLocation == hasLocation
    ensures t.session.cameraActive && t.session.detectedFaces == NoFaces
    ensures t.effects == [ResetAll]
  {
    Transition(Session(focused, false, false, true, NoFaces, hasLocation, 0), [ResetAll])
  }

  /** The "focus" listener (the navigation hook also turns `isFocused` on). */
  function OnFocus(s: Session): (t: Transition)
    ensures CameraLive(t.session)
    ensures !t.session.gazing && !t.session.loading
    ensures t.session.detectedFaces == s.detectedFaces
    ensures t.session.hasLocation == s.hasLocation && t.session.pending == s.pending
    ensures t.effects == []
  {
    Transition(s.(focused := true, cameraActive := true, gazing := false, loading := false), [])
  }

  /** The "blur" listener (the navigation hook also turns `isFocused` off). */
  function OnBlur(s: Session): (t: Transition)
    ensures !t.session.focused && !CameraLive(t.session) && !CanCapture(t.session)
    ensures !t.session.cameraActive && !t.session.gazing && !t.session.loading
    ensures t.session.detectedFaces == NoFaces
    ensures t.session.hasLocation == s.hasLocation && t.session.pending == s.pending
    ensures t.effects == []
  {
    Transition(s.(focused := false, cameraActive := false, gazing := false,
                  loading := false, detectedFaces := NoFaces), [])
  }

  /** `handleDetectedFaces`: one frame's payload on the JavaScript side.
      A parse error or a classifier that throws is swallowed by the catch. */
  function OnObservation(s: Session, p: Payload): (t: Transition)
    ensures t.effects == []
    ensures !s.focused || s.loading ==> t.session == s
    ensures p.Unparseable? ==> t.session == s
    ensures p.Parsed? && GazeOf(p.value).None? ==> t.session == s
    ensures s.focused && !s.loading && p.Parsed? && GazeOf(p.value).Some? ==>
      t.session == s.(gazing := GazeOf(p.value).value, detectedFaces := p.value)
  {
    if !s.focused || s.loading then Transition(s, [])
    else match p
      case Unparseable => Transition(s, [])
      case Parsed(v) =>
        match GazeOf(v)
        case None => Transition(s, [])
        case Some(g) => Transition(s.(gazing := g, detectedFaces := v), [])
  }

  /** The gaze verdict for an accepted payload: the classifier on the first
      element of a non-empty array, and false for anything else. `None` is
      the classifier throwing on a `null` first element. */
  function GazeOf(v: Json): (g: Option<bool>)
    ensures g.None? <==> v.FaceList? && |v.entries| > 0 && v.entries[0].NullEntry?
    ensures v.FaceList? && |v.entries| > 0 && v.entries[0].FaceEntry? ==>
      g == Some(LooksAhead(v.entries[0].face))
    ensures v.FaceList? && |v.entries| > 0 && v.entries[0].OtherEntry? ==> g == Some(false)
    ensures v.OtherJson? || v == NoFaces ==> g == Some(false)
  {
    match v
    case FaceList(es) =>
      if |es| == 0 then Some(false)
      else (match es[0]
        case FaceEntry(f) => Some(LooksAhead(f))
        case NullEntry => None
        case OtherEntry => Some(false))
    case OtherJson => Some(false)
  }

  /** The capture effect: when its guard holds it raises `isLoading` before
      anything asynchronous runs and launches the capture. */
  function OnTrigger(s: Session): (t: Transition)
    ensures CanCapture(s) ==>
      t.session == s.(loading := true, pending := s.pending + 1) && t.effects == [StartCapture]
    ensures !CanCapture(s) ==> t == Transition(s, [])
    ensures !CanCapture(t.session)
  {
    if CanCapture(s) then Transition(s.(loading := true, pending := s.pending + 1), [StartCapture])
    else Transition(s, [])
  }

  /** The catch block's rule: a capture error is shown unless its message
      says it was a timeout or an API error already reported downstream. */
  predicate ShouldAlert(message: string) {
    !Contains(message, TimeoutMarker) && !Contains(message, ApiMarker)
  }

  /** The catch block's decision, computed with the two `includes` calls. */
  method DecideAlert(message: string) returns (alert: bool)
    ensures alert <==> ShouldAlert(message)
  {
    var timeout := Includes(message, TimeoutMarker);
    var api := Includes(message, ApiMarker);
    alert := !timeout && !api;
  }

  /** An error whose message carries either marker anywhere is never alerted. */
  lemma MarkedErrorsSuppressed(pre: string, post: string)
    ensures !ShouldAlert(pre + TimeoutMarker + post)
    ensures !ShouldAlert(pre + ApiMarker + post)
  {
    ContainsSplice(pre, TimeoutMarker, post);
    ContainsSplice(pre, ApiMarker, post);
  }

  /** The alert of the catch block; an empty message falls back to a fixed text. */
  function FailureAlert(message: string): (e: Effect)
    ensures e.ShowAlert? && e.title == FailureTitle
    ensures IsPrefixOf(FailureLead, e.message) && EndsWith(e.message, ".")
    ensures message != [] ==> Contains(e.message, message)
    ensures message == [] ==> Contains(e.message, UnknownError)
  {
    var shown := if message == [] then UnknownError else message;
    ContainsSplice(FailureLead, shown, ".");
    assert (FailureLead + shown + ".")[..|FailureLead|] == FailureLead;
    ShowAlert(FailureTitle, FailureLead + shown + ".")
  }

  /** Some effect is an alert. */
  predicate HasAlert(es: seq<Effect>) {
    exists i :: 0 <= i < |es| && es[i].ShowAlert?
  }

  lemma HasAlertConcat(a: seq<Effect>, b: seq<Effect>)
    ensures HasAlert(a + b) <==> HasAlert(a) || HasAlert(b)
  {
    if HasAlert(a) {
      var i :| 0 <= i < |a| && a[i].ShowAlert?;
      assert (a + b)[i] == a[i];
    }
    if HasAlert(b) {
      var i :| 0 <= i < |b| && b[i].ShowAlert?;
      assert (a + b)[|a| + i] == b[i];
    }
    if HasAlert(a + b) {
      var i :| 0 <= i < |a + b| && (a + b)[i].ShowAlert?;
      if i >= |a| {
        assert b[i - |a|] == (a + b)[i];
      } else {
        assert a[i] == (a + b)[i];
      }
    }
  }

  /** Effects of the catch block for a thrown error. */
  function CatchEffects(message: string): (es: seq<Effect>)
    ensures es == [] || es == [FailureAlert(message)]
    ensures es != [] <==> ShouldAlert(message)
    ensures HasAlert(es) <==> ShouldAlert(message)
  {
    assert ShouldAlert(message) ==> [FailureAlert(message)][0].ShowAlert?;
    if ShouldAlert(message) then [FailureAlert(message)] else []
  }

  /** The body of `_takePhoto` from its first await to its `finally`.
      A completion with no capture in flight cannot occur and is ignored. */
  function OnCaptureFinished(s: Session, o: Outcome): (t: Transition)
    ensures s.pending == 0 ==> t == Transition(s, [])
    ensures s.pending > 0 ==>
      !t.session.gazing && !t.session.loading && t.session.cameraActive &&
      t.session.pending == s.pending - 1 &&
      t.session.focused == s.focused && t.session.hasLocation == s.hasLocation &&
      t.session.detectedFaces == s.detectedFaces
    ensures s.pending > 0 ==> (NavigateToPhoto in t.effects <==> o.Listed?)
    // the photo path is recorded iff the shutter succeeded
    ensures s.pending > 0 ==>
      ((exists p :: SetPhotoPath(p) in t.effects) <==> o.LookupFailed? || o.Listed?)
    ensures s.pending > 0 && (o.LookupFailed? || o.Listed?) ==>
      SetPhotoPath(o.photoPath) in t.effects
    // an alert is shown iff the camera was not ready or a thrown error is not suppressed
    ensures s.pending > 0 ==>
      (HasAlert(t.effects) <==>
        o.CameraNotReady? || ((o.ShutterFailed? || o.LookupFailed?) && ShouldAlert(o.message)))
    // the exact effects of each path
    ensures s.pending > 0 && o.CameraNotReady? ==>
      t.effects == [ShowAlert(NotReadyTitle, NotReadyMessage)]
    ensures s.pending > 0 && o.ShutterFailed? ==> t.effects == CatchEffects(o.message)
    ensures s.pending > 0 && o.LookupFailed? ==>
      t.effects == [SetPhotoPath(o.photoPath)] + CatchEffects(o.message)
    ensures s.pending > 0 && o.Listed? ==>
      t.effects == [SetPhotoPath(o.photoPath), SetFiles(o.images), NavigateToPhoto]
  {
    if s.pending == 0 then Transition(s, [])
    else
      var body := match o
        case CameraNotReady => [ShowAlert(NotReadyTitle, NotReadyMessage)]
        case ShutterFailed(m) => CatchEffects(m)
        case LookupFailed(p, m) => [SetPhotoPath(p)] + CatchEffects(m)
        case Listed(p, images) => [SetPhotoPath(p), SetFiles(images), NavigateToPhoto];
      assert o.CameraNotReady? ==> body[0].ShowAlert?;
      assert o.LookupFailed? ==> HasAlert(body) == HasAlert(CatchEffects(o.message)) by {
        if o.LookupFailed? {
          HasAlertConcat([SetPhotoPath(o.photoPath)], CatchEffects(o.message));
        }
      }
      // the `finally` block, on every path
      Transition(s.(gazing := false, loading := false, cameraActive := true,
                    pending := s.pending - 1), body)
  }

  /** The shared `location` appears or disappears; the capture guard is
      re-evaluated against it, and nothing else changes. */
  function OnLocation(s: Session, present: bool): (t: Transition)
    ensures t.session.hasLocation == present
    ensures t.session.(hasLocation := s.hasLocation) == s && t.effects == []
    ensures CanCapture(t.session) <==> present && s.focused && s.gazing && !s.loading
    ensures !present ==> !CanCapture(t.session)
  {
    Transition(s.(hasLocation := present), [])
  }

  /** One event. A capture starts only on a trigger check whose guard holds. */
  function Step(s: Session, e: Event): (t: Transition)
    ensures t.session.pending > s.pending <==> e.TriggerCheck? && CanCapture(s)
    ensures t.session.pending <= s.pending + 1
    ensures StartCapture in t.effects <==> e.TriggerCheck? && CanCapture(s)
  {
    match e
    case Focus => OnFocus(s)
    case Blur => OnBlur(s)
    case Observation(p) => OnObservation(s, p)
    case TriggerCheck => OnTrigger(s)
    case CaptureFinished(o) => OnCaptureFinished(s, o)
    case LocationChanged(present) => OnLocation(s, present)
  }

  /** A sequence of events, with the effects concatenated in order. */
  function Run(s: Session, es: seq<Event>): (t: Transition)
    decreases |es|
  {
    if es == [] then Transition(s, [])
    else
      var first := Step(s, es[0]);
      var rest := Run(first.session, es[1..]);
      Transition(rest.session, first.effects + rest.effects)
  }

  /** A run in which the screen never blurs or refocuses while a capture is
      in flight. */
  predicate Calm(s: Session, es: seq<Event>)
    decreases |es|
  {
    es == [] ||
    ((es[0].Focus? || es[0].Blur? ==> s.pending == 0) && Calm(Step(s, es[0]).session, es[1..]))
  }

  /** While a capture is in flight, observations and trigger checks change nothing. */
  lemma BusyScreenIgnoresInput(s: Session, p: Payload)
    requires Exclusive(s) && s.pending > 0
    ensures Step(s, Observation(p)) == Transition(s, [])
    ensures Step(s, TriggerCheck) == Transition(s, [])
  {
  }

  /** Every event except a focus change during a capture keeps the exclusion invariant. */
  lemma StepKeepsExclusive(s: Session, e: Event)
    requires Exclusive(s)
    requires e.Focus? || e.Blur? ==> s.pending == 0
    ensures Exclusive(Step(s, e).session)
  {
  }

  /** The exclusion invariant over a whole calm run. */
  lemma {:induction false} RunKeepsExclusive(s: Session, es: seq<Event>)
    requires Exclusive(s) && Calm(s, es)
    ensures Exclusive(Run(s, es).session)
    ensures Run(s, es).session.pending <= 1
    decreases |es|
  {
    if es != [] {
      StepKeepsExclusive(s, es[0]);
      RunKeepsExclusive(Step(s, es[0]).session, es[1..]);
    }
  }

  /** From mount, a calm run never has two captures in flight, and every
      capture completion returns the screen to idle with the camera on. */
  lemma {:induction false} CalmRunFromMount(focused: bool, hasLocation: bool, es: seq<Event>, o: Outcome)
    requires Calm(Mount(focused, hasLocation).session, es)
    ensures Run(Mount(focused, hasLocation).session, es).session.pending <= 1
    ensures var s := Run(Mount(focused, hasLocation).session, es).session;
      s.pending == 1 ==>
        var after := Step(s, CaptureFinished(o)).session;
        after.pending == 0 && !after.loading && !after.gazing && after.cameraActive
  {
    RunKeepsExclusive(Mount(focused, hasLocation).session, es);
  }

  /** Only the first face of a payload is consulted. */
  lemma FirstFaceDecides(s: Session, f: Face, rest1: seq<Entry>, rest2: seq<Entry>)
    requires s.focused && !s.loading
    ensures Step(s, Observation(Parsed(FaceList([FaceEntry(f)] + rest1)))).session.gazing
         == Step(s, Observation(Parsed(FaceList([FaceEntry(f)] + rest2)))).session.gazing
         == LooksAhead(f)
  {
  }

  /** A second trigger check right after a capture started starts nothing. */
  lemma TriggerFiresOnce(s: Session)
    ensures var once := Step(s, TriggerCheck);
      Step(once.session, TriggerCheck) == Transition(once.session, [])
  {
  }

  const Frontal: Face := Face(0.0, 0.0, 0.0, 1.0, 1.0)

  /** As written, blurring and refocusing while a capture is in flight clears
      `isLoading`, so one frontal frame starts a second capture on top of the
      first. */
  lemma RefocusAllowsOverlap()
    ensures var t := Run(Mount(true, true).session,
      [Observation(Parsed(FaceList([FaceEntry(Frontal)]))), TriggerCheck, Blur, Focus,
       Observation(Parsed(FaceList([FaceEntry(Frontal)]))), TriggerCheck]);
      t.session.pending == 2 && t.effects == [StartCapture, StartCapture]
  {
    var frame := Observation(Parsed(FaceList([FaceEntry(Frontal)])));
    var s0 := Mount(true, true).session;
    var s1 := Step(s0, frame).session;
    assert s1.gazing;
    var s2 := Step(s1, TriggerCheck).session;
    assert s2.pending == 1 && s2.loading;
    var s3 := Step(s2, Blur).session;
    var s4 := Step(s3, Focus).session;
    assert s4.pending == 1 && !s4.loading;
    var s5 := Step(s4, frame).session;
    assert CanCapture(s5);
    var es := [frame, TriggerCheck, Blur, Focus, frame, TriggerCheck];
    var last := Step(s5, TriggerCheck);
    assert last.effects == [StartCapture];
    var one := [StartCapture];
    assert Run(s5, es[5..]) == Transition(last.session, one);
    assert Run(s4, es[4..]) == Transition(last.session, one);
    assert Run(s3, es[3..]) == Transition(last.session, one);
    assert Run(s2, es[2..]) == Transition(last.session, one);
    assert Run(s1, es[1..]) == Transition(last.session, one + one);
    assert Run(s0, es) == Transition(last.session, one + one);
  }

  /** As written, a capture that finishes after the screen blurred still
      records the photo and navigates: its result is not discarded. */
  lemma LateResultApplied(s: Session, path: string, images: seq<string>)
    requires Exclusive(s) && s.pending == 1
    ensures var t := Run(s, [Blur, CaptureFinished(Listed(path, images))]);
      SetPhotoPath(path) in t.effects && NavigateToPhoto in t.effects &&
      t.session.cameraActive && !CameraLive(t.session)
  {
    var es := [Blur, CaptureFinished(Listed(path, images))];
    var s1 := Step(s, Blur).session;
    assert s1.pending == 1 && !s1.focused;
    var last := Step(s1, es[1]);
    assert NavigateToPhoto in last.effects;
    assert Run(s1, es[1..]) == Transition(last.session, last.effects);
  }
}

=== FILE: gaze.dfy ===
/** The gaze classifier of the camera screen (`estaOlhandoParaFrente`):
    decides from one detected face whether the user looks straight at the
    lens with both eyes open. The detector's numbers are modelled as exact
    reals; the classifier only takes absolute values and compares. */
module Gaze {

  /** One face record of the detector: head pose in signed degrees and
      the two eye-open probabilities. */
  datatype Face = Face(
    pitch: real,
    roll: real,
    yaw: real,
    leftEyeOpen: real,
    rightEyeOpen: real)

  /** The limits hard-coded in the classifier. */
  const MaxPitch: real := 3.0
  const MaxRoll: real := 10.0
  const MaxYaw: real := 10.0
  const MinEyeOpen: real := 0.7

  function Abs(x: real): (r: real)
    ensures r >= 0.0
    ensures r == x || r == -x
  {
    if x < 0.0 then -x else x
  }

  /** The pose part: every angle within its symmetric limit. */
  predicate AnglesValid(f: Face) {
    Abs(f.pitch) <= MaxPitch && Abs(f.roll) <= MaxRoll && Abs(f.yaw) <= MaxYaw
  }

  /** The eye part: both eyes at least as open as the minimum. */
  predicate EyesOpen(f: Face) {
    f.leftEyeOpen >= MinEyeOpen && f.rightEyeOpen >= MinEyeOpen
  }

  /** The classifier. Its contract restates it as closed intervals, with
      every bound inclusive. */
  function LooksAhead(f: Face): (r: bool)
    ensures r <==>
      -MaxPitch <= f.pitch <= MaxPitch &&
      -MaxRoll <= f.roll <= MaxRoll &&
      -MaxYaw <= f.yaw <= MaxYaw &&
      f.leftEyeOpen >= MinEyeOpen && f.rightEyeOpen >= MinEyeOpen
  {
    AnglesValid(f) && EyesOpen(f)
  }

  /** Breaking any single limit rejects the face, whatever the other fields. */
  lemma AnyViolationRejects(f: Face)
    requires Abs(f.pitch) > MaxPitch || Abs(f.roll) > MaxRoll || Abs(f.yaw) > MaxYaw
          || f.leftEyeOpen < MinEyeOpen || f.rightEyeOpen < MinEyeOpen
    ensures !LooksAhead(f)
  {
  }

  /** A face sitting exactly on every limit is accepted, and moving any one
      field a little past its limit rejects it. */
  lemma BoundariesInclusive(eps: real)
    requires eps > 0.0
    ensures LooksAhead(Face(3.0, -10.0, 10.0, 0.7, 0.7))
    ensures LooksAhead(Face(-3.0, 10.0, -10.0, 1.0, 0.7))
    ensures !LooksAhead(Face(3.0 + eps, 0.0, 0.0, 1.0, 1.0))
    ensures !LooksAhead(Face(0.0, -10.0 - eps, 0.0, 1.0, 1.0))
    ensures !LooksAhead(Face(0.0, 0.0, 10.0 + eps, 1.0, 1.0))
    ensures !LooksAhead(Face(0.0, 0.0, 0.0, 0.7 - eps, 1.0))
    ensures !LooksAhead(Face(0.0, 0.0, 0.0, 1.0, 0.7 - eps))
  {
  }

  /** Mirroring the head (negating every angle) does not change the verdict. */
  lemma MirrorInvariant(f: Face)
    ensures LooksAhead(f) == LooksAhead(Face(-f.pitch, -f.roll, -f.yaw, f.leftEyeOpen, f.rightEyeOpen))
  {
  }
}

=== FILE: janitor.dfy ===
/** `apagarCacheTemporario`: delete one temporary file if it exists. The
    file system is the set of paths that exist; the two file-system calls
    may fail, and which of them fails is a parameter. */
module TempFiles {
  import opened Optional
  import opened Text

  /** The argument as JavaScript sees it: a string, or any other value. */
  datatype PathArg = Str(path: string) | NotString

  /** The file-system calls made, in order. */
  datatype FsCall = ExistsCall(path: string) | UnlinkCall(path: string)

  /** Failure messages the two calls would throw with; `None` means the
      call succeeds. */
  datatype Faults = Faults(existsError: Option<string>, unlinkError: Option<string>)

  const NoFaults: Faults := Faults(None, None)
  const ErrorPrefix: string := "Falha ao excluir arquivo temporário: "

  /** The files left, the calls made, and the error thrown (if any). */
  datatype Deletion = Deletion(files: set<string>, calls: seq<FsCall>, error: Option<string>)

  /** An argument the guard lets through: a non-empty string. */
  predicate Deletable(arg: PathArg) {
    arg.Str? && arg.path != []
  }

  function DeleteTemp(files: set<string>, arg: PathArg, faults: Faults): (r: Deletion)
    // an empty or non-string argument consults nothing and changes nothing
    ensures !Deletable(arg) ==> r == Deletion(files, [], None)
    // at most the given path disappears
    ensures Deletable(arg) ==> r.files == files || r.files == files - {arg.path}
    ensures forall q :: q in files && !(Deletable(arg) && q == arg.path) ==> q in r.files
    ensures r.files <= files
    // the path is gone exactly when it existed and neither call failed
    ensures Deletable(arg) ==>
      (arg.path !in r.files <==> (arg.path in files ==> faults.existsError.None? && faults.unlinkError.None?))
    // a failing call that was made is always reported, with the fixed prefix
    ensures r.error.Some? <==>
      (exists p :: ExistsCall(p) in r.calls && faults.existsError.Some?) ||
      (exists p :: UnlinkCall(p) in r.calls && faults.unlinkError.Some?)
    ensures r.error.Some? ==> r.files == files && IsPrefixOf(ErrorPrefix, r.error.value)
    // the error carries the message of the call that actually threw
    ensures Deletable(arg) && faults.existsError.Some? ==>
      r.error == Some(ErrorPrefix + faults.existsError.value)
    ensures Deletable(arg) && UnlinkCall(arg.path) in r.calls && faults.unlinkError.Some? ==>
      r.error == Some(ErrorPrefix + faults.unlinkError.value)
    // unlink is called only after a successful existence check found the path
    ensures Deletable(arg) ==>
      r.calls == [ExistsCall(arg.path)] || r.calls == [ExistsCall(arg.path), UnlinkCall(arg.path)]
    ensures Deletable(arg) ==>
      (UnlinkCall(arg.path) in r.calls <==> faults.existsError.None? && arg.path in files)
  {
    if !Deletable(arg) then Deletion(files, [], None)
    else
      var p := arg.path;
      match faults.existsError
      case Some(m) => Deletion(files, [ExistsCall(p)], Some(ErrorPrefix + m))
      case None =>
        if p in files then
          match faults.unlinkError
          case Some(m) => Deletion(files, [ExistsCall(p), UnlinkCall(p)], Some(ErrorPrefix + m))
          case None => Deletion(files - {p}, [ExistsCall(p), UnlinkCall(p)], None)
        else Deletion(files, [ExistsCall(p)], None)
  }

  /** Without failures, deletion is set removal: missing paths are not an error. */
  lemma DeleteIsRemoval(files: set<string>, p: string)
    requires p != []
    ensures DeleteTemp(files, Str(p), NoFaults).files == files - {p}
    ensures DeleteTemp(files, Str(p), NoFaults).error == None
  {
  }

  /** Deleting twice leaves the same files as deleting once; the second
      call only checks existence and finds nothing. */
  lemma DeleteTwiceIsDeleteOnce(files: set<string>, arg: PathArg)
    ensures var once := DeleteTemp(files, arg, NoFaults);
      var twice := DeleteTemp(once.files, arg, NoFaults);
      twice.files == once.files && twice.error == None &&
      (Deletable(arg) ==> twice.calls == [ExistsCall(arg.path)])
  {
  }
}

=== FILE: login.dfy ===
/** The login screen's `downloadImage`: the typed employee number
    (`matricula`) becomes the name of a file on the photo server, the file
    is requested, and the screen branches on the local path it got back. */
module Login {
  import opened Optional
  import opened Text

  const UrlPrefix: string :=
    "https://comlurbdev.rio.rj.gov.br/extranet/Fotos/fotoRecoginizer/downlaod.php?file="
  const UrlSuffix: string := ".jpg"

  /** `m.substring(0, 1)`: the first character, or "" for an empty string. */
  function FirstChar(m: string): (c: string)
    ensures |m| == 0 ==> c == []
    ensures |m| > 0 ==> c == [m[0]]
  {
    if |m| == 0 then "" else m[..1]
  }

  /** Employee numbers that start with '8'. */
  predicate StartsWithEight(m: string) {
    FirstChar(m) == "8"
  }

  /** The server file name for an employee number. Three `if`s run in turn
      and a later one overrides an earlier one; `None` stands for the name
      left unassigned. The contract states the resulting partition: every
      input gets a name, of one of three shapes. */
  function ServerFileId(m: string): (id: Option<string>)
    ensures id.Some?
    ensures |m| < 6 || (|m| == 6 && !StartsWithEight(m)) ==>
      id.value == "014" + Repeat('0', 6 - |m|) + m && |id.value| == 9
    ensures |m| >= 6 && StartsWithEight(m) ==> id.value == "0" + m
    ensures |m| > 6 && !StartsWithEight(m) ==> id.value == m
  {
    var first := FirstChar(m);
    var short := if |m| <= 6 then Some("014" + PadStart(m, 6, '0')) else None;
    var eight := if first == "8" && |m| >= 6 then Some("0" + PadStart(m, 6, '0')) else short;
    if |m| > 6 && first != "8" then Some(PadStart(m, 6, '0')) else eight
  }

  /** Every name ends with the typed number and has at least six
      characters, so the final `padStart(6, "0")` changes nothing. */
  lemma FileIdKeepsNumber(m: string)
    ensures EndsWith(ServerFileId(m).value, m)
    ensures |ServerFileId(m).value| >= 6
    ensures PadStart(ServerFileId(m).value, 6, '0') == ServerFileId(m).value
  {
    var id := ServerFileId(m).value;
    if |m| < 6 || (|m| == 6 && !StartsWithEight(m)) {
      assert id[|id| - |m|..] == m;
    } else if StartsWithEight(m) {
      assert id[|id| - |m|..] == m;
    }
  }

  /** The download address for a file name (its final `padStart(6, "0")` is
      a no-op on every name `ServerFileId` produces). */
  function ImageUrl(id: string): (url: string)
    ensures IsPrefixOf(UrlPrefix, url) && EndsWith(url, UrlSuffix)
    ensures |id| >= 6 ==> url == UrlPrefix + id + UrlSuffix
    ensures |id| < 6 ==> url == UrlPrefix + Repeat('0', 6 - |id|) + id + UrlSuffix
  {
    assert (UrlPrefix + PadStart(id, 6, '0') + UrlSuffix)[..|UrlPrefix|] == UrlPrefix;
    UrlPrefix + PadStart(id, 6, '0') + UrlSuffix
  }

  /** The requested address is the fixed prefix, the file name and ".jpg",
      and the file name ends with the typed number. */
  lemma UrlShape(m: string)
    ensures var id := ServerFileId(m).value;
      var url := ImageUrl(id);
      url == UrlPrefix + id + UrlSuffix &&
      IsPrefixOf(UrlPrefix, url) && EndsWith(url, UrlSuffix) &&
      EndsWith(url[..|url| - |UrlSuffix|], m)
  {
    FileIdKeepsNumber(m);
    UrlKeepsName(ServerFileId(m).value, m);
  }

  /** The part of an address before ".jpg" ends with whatever the file name ends with. */
  lemma UrlKeepsName(id: string, m: string)
    requires |id| >= 6 && EndsWith(id, m)
    ensures var url := ImageUrl(id); EndsWith(url[..|url| - |UrlSuffix|], m)
  {
    var url := ImageUrl(id);
    assert url[..|url| - |UrlSuffix|] == UrlPrefix + id;
    assert (UrlPrefix + id)[|UrlPrefix + id| - |m|..] == id[|id| - |m|..];
  }

  /** Leading zeros of a short number are lost: "1" and "01" name the
      same server file. */
  lemma ShortNumbersCollide()
    ensures ServerFileId("1") == ServerFileId("01") == Some("014000001")
  {
    var one, zeroOne := "1", "01";
    assert !StartsWithEight(one) && !StartsWithEight(zeroOne);
    assert Repeat('0', 5) + one == Repeat('0', 4) + zeroOne == "000001";
    assert "014" + "000001" == "014000001";
  }

  /** The '8' rule collides with a typed leading zero: "8123456" and
      "08123456" name the same server file. */
  lemma EightRuleCollides()
    ensures ServerFileId("8123456") == ServerFileId("08123456") == Some("08123456")
  {
    var eight, zeroEight := "8123456", "08123456";
    assert StartsWithEight(eight) && !StartsWithEight(zeroEight);
    assert "0" + eight == zeroEight;
  }

  datatype Route = Luz | ErrorPhoto

  /** The outcome of the file download: the local path `res.path()`
      returned, or the error the fetch threw. */
  datatype Download = Fetched(localPath: string) | FetchFailed(error: string)

  /** The state the handler writes: the shared `serverPhotoPath` and the
      screen's own `error`. */
  datatype Screen = Screen(serverPhotoPath: Option<string>, error: Option<string>)

  /** What one press does: the new state, the address requested (if any)
      and the route navigated to (if any). */
  datatype Press = Press(screen: Screen, requested: Option<string>, navigation: Option<Route>)

  /** `downloadImage`, with the network left to the opaque `fetch`. */
  function DownloadImage(s: Screen, matricula: Option<string>, fetch: string -> Download): (r: Press)
    ensures matricula.None? || matricula.value == [] ==> r == Press(s, None, None)
    ensures matricula.Some? && matricula.value != [] ==>
      ServerFileId(matricula.value).Some? &&
      var id := ServerFileId(matricula.value).value;
      var url := UrlPrefix + id + UrlSuffix;
      r.requested == Some(url) &&
      match fetch(url)
      case Fetched(p) =>
        if p != [] then r.screen == s.(serverPhotoPath := Some(p)) && r.navigation == Some(Luz)
        else r.screen == s && r.navigation == Some(ErrorPhoto)
      case FetchFailed(e) =>
        r.screen == s.(error := Some(e)) && r.navigation == Some(ErrorPhoto)
  {
    if matricula.None? || matricula.value == [] then Press(s, None, None)
    else
      UrlShape(matricula.value);
      var url := ImageUrl(ServerFileId(matricula.value).value);
      match fetch(url)
      case Fetched(p) =>
        if p != [] then Press(s.(serverPhotoPath := Some(p)), Some(url), Some(Luz))
        else Press(s, Some(url), Some(ErrorPhoto))
      case FetchFailed(e) => Press(s.(error := Some(e)), Some(url), Some(ErrorPhoto))
  }

  /** A press navigates exactly when a number was typed, and reaches "Luz"
      only with a recorded photo path. */
  lemma NavigationOnlyAfterRequest(s: Screen, matricula: Option<string>, fetch: string -> Download)
    ensures var r := DownloadImage(s, matricula, fetch);
      (r.navigation.Some? <==> r.requested.Some?) &&
      (r.navigation == Some(Luz) ==> r.screen.serverPhotoPath.Some? && r.screen.serverPhotoPath.value != [])
  {
  }
}

=== FILE: optional.dfy ===
/** The absent-or-present value used across the model for JavaScript's
    `null`/`undefined` versus a real value. */
module Optional {

  datatype Option<+T> = None | Some(value: T)
}

=== FILE: text.dfy ===
/** String helpers that stand for JavaScript's built-in `String.prototype`
    methods used by the app: `includes` and `padStart`. Strings are `seq<char>`. */
module Text {

  /** `needle` is a prefix of `hay`. */
  predicate IsPrefixOf(needle: string, hay: string) {
    |needle| <= |hay| && hay[..|needle|] == needle
  }

  /** `needle` occurs somewhere in `hay` (the meaning of `hay.includes(needle)`). */
  predicate Contains(hay: string, needle: string) {
    exists i :: 0 <= i <= |hay| && IsPrefixOf(needle, hay[i..])
  }

  /** `hay` ends with `suffix`. */
  predicate EndsWith(hay: string, suffix: string) {
    |suffix| <= |hay| && hay[|hay| - |suffix|..] == suffix
  }

  /** A string made only of `c`. */
  predicate AllChar(s: string, c: char) {
    forall k :: 0 <= k < |s| ==> s[k] == c
  }

  /** Left-to-right search, the algorithm behind `hay.includes(needle)`. */
  method Includes(hay: string, needle: string) returns (found: bool)
    ensures found <==> Contains(hay, needle)
  {
    var i := 0;
    while i + |needle| <= |hay|
      invariant 0 <= i <= |hay| + 1
      invariant forall j :: 0 <= j < i ==> !IsPrefixOf(needle, hay[j..])
      decreases |hay| - i
    {
      if hay[i..i + |needle|] == needle {
        assert IsPrefixOf(needle, hay[i..]);
        return true;
      }
      assert hay[i..][..|needle|] == hay[i..i + |needle|];
      i := i + 1;
    }
    forall j | i <= j <= |hay|
      ensures !IsPrefixOf(needle, hay[j..])
    {
    }
    found := false;
  }

  /** `k` copies of `c`. */
  function Repeat(c: char, k: nat): (r: string)
    ensures |r| == k && AllChar(r, c)
  {
    seq(k, _ => c)
  }

  /** `s.padStart(n, c)`: `s` itself when it already has `n` characters,
      otherwise `s` preceded by as many copies of `c` as make it `n` long. */
  function PadStart(s: string, n: nat, c: char): (r: string)
    ensures |s| >= n ==> r == s
    ensures |s| < n ==> r == Repeat(c, n - |s|) + s && |r| == n
    ensures EndsWith(r, s)
    decreases n - |s|
  {
    if |s| >= n then s else PadStart([c] + s, n, c)
  }

  /** `hay.includes(needle)` holds whenever `needle` is spliced into it. */
  lemma ContainsSplice(pre: string, needle: string, post: string)
    ensures Contains(pre + needle + post, needle)
  {
    var hay := pre + needle + post;
    assert hay[|pre|..][..|needle|] == needle;
    assert IsPrefixOf(needle, hay[|pre|..]);
  }
}
